=== FILE: README.md ===
# buildfurfa core in Dafny

A model of `furfa.py`, a minimal build orchestrator. It has three parts.

- **Artifacts and their freshness tests.** There are three kinds of artifact:
  - a file to touch (`ToTouchFile`);
  - a tracked file (`RegularFile`);
  - an output file produced by a recipe (`OutputFile`).

  A file to touch reads nothing and is always stale. A tracked file, and an output
  file that exists, read one modification time (`st_mtime_ns`), compare it with the
  cached time and then refresh the cache. A missing output file reads nothing and
  keeps its snapshot.
- **Builders.** There are two recipes: touching a file (`TouchFile`), and compiling one
  input into one output with gcc (`GCC`).
- **The dispatcher `builder`.** It skips an up-to-date artifact, and it silently accepts a
  stale artifact that has no recipe. Otherwise it dispatches every prerequisite, then
  runs the recipe once. An exception anywhere aborts the whole dispatch.

The file system is a value `World`. It maps each regular file's path to its modification
time, and it holds a clock. Every write stamps the clock reading and advances the clock
(`Filesystem.Write`). Python mutates artifact objects in place. Here every operation instead
returns the artifact with its refreshed cache, so the cache is threaded explicitly. A
dispatch returns four things:

- the error that aborted it, if any;
- the updated artifact tree;
- the file system afterwards;
- the targets of the recipes that ran, in order.

Files: `wrappers.dfy` (Option, Result), `filesystem.dfy` (World, writes),
`artifacts.dfy` (artifacts, builders, freshness, runs), `freshness.dfy` (repeated
checks), `dispatch.dfy` (the dispatcher), `scenario.dfy` (the `foo`/`foo.c` build set up at
module level).

## Behaviour the code has, stated as proved

- **"Up to date" means "changed".** A tracked file is reported up to date exactly when its
  time moved past the cached one (`furfa.py:66-70`), so a first check after
  construction, with no change in between, reports it stale. The same holds for an output file once a snapshot
  exists (`furfa.py:96-98`).
- **Time 0 counts as "no snapshot".** The test `if not self._mtime` (`furfa.py:92`) is false
  for `None` and for `0`. An output file with time 0 is therefore trusted at every check
  (`Freshness.RecheckIsStale`).
- **First check of an existing output.** One might expect an output over a pre-existing
  path to be trusted at a first check made with no change since construction, since the "no snapshot" branch adopts the time
  and reports up to date (`furfa.py:92-94`). The code instead snapshots at construction
  (`furfa.py:84-85`), so the first check compares the time with itself and reports stale. The exception is time 0 (`Freshness.NewOutputFirstCheck`).
  Only an output first seen *after* construction is trusted
  (`Freshness.OutputTrustsFirstSighting`).
- **The `foo`/`foo.c` build.** The dispatcher never compares two files, so a change to
  `foo.c` is not what makes `foo` stale. The second dispatch adopts the new
  `foo` as its snapshot and does nothing, not even the touch. The third rebuilds, the
  fourth skips, and so on, whatever happens to `foo.c`, as long as `foo`'s times are not 0
  (`Scenario.RebuildSkipRebuild`, `Scenario.RebuildsEveryOtherTime`). This alternation
  needs one object dispatched on repeatedly in one process. The script itself dispatches once
  (`furfa.py:140`), and each run constructs a new `a` that snapshots `foo` at
  construction. So every run of the script touches `foo.c` and compiles `foo`, unless
  `foo` exists with time 0 (`Scenario.ScriptAlwaysRebuilds`).
- **An `OutputFile` has no `path()` method.** Using one as the input of `GCC` raises when
  the compiler runs. The model has an error for this (`MissingPathMethod`), and
  `Dispatch.BuildSucceeds` assumes inputs that are files, as the annotations demand.

## Model

| member | source | states |
|---|---|---|
| Filesystem.WriteEffects | furfa.py:33 | touching (or compiling into) a path creates it or refreshes it: its time is the clock reading and no other file changes; in a valid world (every time below the clock) it is newer than every other file and no file disappears |
| Artifacts.UpToDate | furfa.py:49-98 | a check changes nothing in the artifact but its cached time: the kind, the path and the recipe stay the same |
| Artifacts.CheckOutcomes | furfa.py:49-98 | a file to touch is always stale and keeps no state. A tracked file raises FileNotFound when missing, otherwise is up to date iff its time exceeds the cached one. A missing output file is stale and its snapshot is kept. An existing output with no truthy snapshot (None or 0) is up to date. An existing output with a truthy snapshot is up to date iff its time exceeds it. After every successful check the cache equals the file's current time |
| Artifacts.BuilderOf | furfa.py:52-101 | a file to touch has a touch recipe for its own path, a tracked file has none, an output file has the recipe captured at construction; the recipe's prerequisites are strictly smaller than the artifact |
| Artifacts.Prerequisites | furfa.py:113-114 | gcc has exactly its input as prerequisite, touch has none; at most one prerequisite, never larger than the recipe |
| Artifacts.WithPrerequisites | furfa.py:109-114 | a recipe can hold refreshed prerequisite objects: reading the prerequisites back gives exactly them, and the target is unchanged |
| Artifacts.FilePath | furfa.py:55-56 | `path()` exists for files to touch and tracked files and returns their path; output files have no `path()` |
| Artifacts.NewRegular | furfa.py:62-64 | constructing a tracked file raises FileNotFound iff the path is not a file, otherwise it caches the file's current time |
| Artifacts.NewOutput | furfa.py:80-85 | constructing an output file applies the factory to its path and snapshots the time only when the file exists |
| Artifacts.GccFactory | furfa.py:103-106 | the factory `gcc(input)` makes, for any output path, a recipe whose one prerequisite is `input` and whose target is that path |
| Artifacts.Run | furfa.py:116-122 | touch never fails. Gcc raises CompilerNotFound when gcc is not on the search path, MissingPathMethod when its input is an output file, and CompileFailed(status) on a non-zero exit. It succeeds exactly otherwise. Success writes only the target and returns one tracked file over it, equal to constructing a tracked file after the write |
| Freshness.ToTouchAlwaysStale | furfa.py:49-50 | however often a file to touch is checked, in whatever file system states, every check reports stale |
| Freshness.TrackedReportsChanges | furfa.py:66-70 | repeated checks of one tracked file succeed iff the file exists at every check, and each reports whether its time exceeds the time seen by the previous check (or at construction) |
| Freshness.RecheckIsStale | furfa.py:87-98 | a second check with no change in between keeps the cache and reports stale, except for an existing output file with time 0, which is reported up to date again |
| Freshness.TrackedFileSeesChange | furfa.py:62-70 | a tracked file constructed at time T0 is stale at a first check with no change in between, and a later check after its time moved to T1 > T0 reports it changed |
| Freshness.NewOutputFirstCheck | furfa.py:80-98 | a first check of a newly constructed output file, with no change since construction, reports up to date iff the file exists with time 0 |
| Freshness.OutputTrustsFirstSighting | furfa.py:91-94 | an output file absent at construction and present at its first check is reported up to date and adopts the current time |
| Dispatch.Build | furfa.py:126-138 | a dispatch changes only cached times in the tree, and the file system afterwards is exactly the writes of the recipes that ran successfully, in the order they ran; a recipe that raised writes nothing |
| Dispatch.SkipsWithoutWriting | furfa.py:126-133 | when the check raises, the dispatch raises the same error and changes nothing. An up-to-date artifact, or a stale one without a recipe, gives no error, runs nothing and writes nothing, and keeps the cache its check left |
| Dispatch.Conclude | furfa.py:135-138 | an error from the prerequisites propagates and the recipe does not run. If the recipe raises, its error is the dispatch's and nothing more is written. A dispatch without error had no prerequisite error and wrote the target last |
| Dispatch.ConcludeRuns | furfa.py:135-138 | with no prerequisite error and a recipe that succeeds, the dispatch succeeds: the recipe holding the refreshed prerequisites runs last, and its target is appended to the runs |
| Dispatch.TouchAlwaysRuns | furfa.py:32-53 | dispatching a file to touch always touches it, exactly once, and never raises |
| Dispatch.BuildAll | furfa.py:135-136 | dispatching the prerequisites returns one refreshed object per prerequisite, of the same shape, and the file system is exactly their writes in order |
| Dispatch.DispatchEffects | furfa.py:126-138 | a dispatch changes no file other than the targets of the recipes it ran, which all exist afterwards; in a valid world no file disappears and no time goes back |
| Dispatch.RebuiltTargetIsNewest | furfa.py:135-138 | in a valid world, after a successful dispatch that ran the recipe, its target is the most recently modified file |
| Dispatch.PrerequisitesFirst | furfa.py:135-138 | prerequisites are dispatched before the recipe. If one raises, the recipe does not run and the error propagates. Otherwise the recipe runs once, after them. If the recipe raises, nothing more is written |
| Dispatch.CompileFailureAborts | furfa.py:116-121 | a non-zero gcc exit aborts the dispatch with that status, and the output is not written |
| Dispatch.BatchStopsAtFirstError | furfa.py:135-136 | when the loop raises, there is a prerequisite whose predecessors were dispatched without error and whose own dispatch raised that very error, and every prerequisite after it comes back unvisited |
| Dispatch.BuildSucceeds | furfa.py:126-138 | with gcc present and always exiting 0, a tree whose tracked files exist and whose compiler inputs are files always builds without an error |
| Dispatch.BuildAllSucceeds | furfa.py:135-136 | under the same conditions, dispatching a list of prerequisites never raises |
| Scenario.Root | furfa.py:124 | the module-level target is the output `foo` compiled by gcc from the file to touch `foo.c` |
| Scenario.ScriptAlwaysRebuilds | furfa.py:124-140 | one run of the script (construct `a`, dispatch once) touches `foo.c` and then compiles `foo`, without error, unless `foo` exists with time 0 |
| Scenario.RebuildSkipRebuild | furfa.py:124-140 | from an empty file system with the clock at 1, the first dispatch touches `foo.c` then compiles `foo`, the second does nothing, and the third touches and compiles again |
| Scenario.StaleOutputRebuilds | furfa.py:124-138 | a stale output compiled from a file to touch, with a working compiler, touches the source and then compiles the output, and keeps the cache its check left |
| Scenario.RebuildsEveryOtherTime | furfa.py:87-138 | once `foo` has been seen with a non-zero time, a dispatch that rebuilds is followed by one that skips; when the clock is not negative, `foo`'s new time is positive, so the state left is of the same form |
| Scenario.UnchangedOutputRebuilds | furfa.py:96-98 | a `foo` whose time still equals its snapshot is rebuilt, after `foo.c` is touched |
| Scenario.ChangedOutputSkips | furfa.py:96-98 | a `foo` whose time moved past its snapshot is skipped, and the snapshot moves to that time |

## Left out

- Real file-system I/O: `stat`, `is_file` and `touch` are lookups and updates of a map from path to time. Directories, permissions, missing parent directories and the race between `is_file` and `stat` in `OutputFile.__init__` (`furfa.py:84-85`) and in `OutputFile.up_to_date` (`furfa.py:88-91`) are not modelled.
- The clock: every write gets the next tick of a strictly increasing integer clock. Real clocks can go back, and coarse timestamps can give two writes the same time.
- Filesystem.Write: a real `touch` also raises on permission errors; the model's touch never fails.
- Artifacts.Run: `shutil.which("gcc")` and `subprocess.Popen(...).wait()` are foreign process calls. They become the `Toolchain` parameter: whether gcc is on the search path, and the exit status as a function of the input and output paths only. The contents of files are not modelled.
- Artifacts.Run: a failed compilation is modelled as writing nothing. Real gcc may leave or remove a partial output. A failure to spawn the process (an `OSError` from `Popen`) is not modelled.
- Artifacts.Run: the source raises a bare `Exception("Error in running GCC")`; the model's `CompileFailed` also carries the exit status, which the message does not.
- Artifacts.Run: `assert gcc is not None` disappears under `python -O`; the model always raises when gcc is not found.
- The `print("aaa")` in the dispatcher is logging only.
- The `_typecheck` helpers and the `Protocol` classes are typing scaffolding; closed datatypes replace them.
- Prerequisite sets become sequences. Python's identity-based set membership does not matter, because a recipe has at most one prerequisite.
- Paths are compared as strings: `./foo` and `foo`, relative and absolute paths, and symbolic links to the same file are different paths in the model.
- Shared artifact objects: in Python one artifact instance can be reachable from two roots (an `OutputFile` that is dispatched on and also passed to `gcc`, or two outputs built from one `gcc(x)`), and its single `_mtime` is refreshed by every check through either root. The model threads an independent copy through each root, so a check through one root is not seen through the other. With one module-level root, as in `furfa.py:124-140`, nothing is shared.
- Cycles: the artifact datatypes are inductive, so a cyclic dependency cannot be written. The source has no cycle guard either.
- The module-level construction and dispatch (`a = ...`, `builder(a)`) are replayed as lemmas over an explicit file system instead of global state.

=== FILE: artifacts.dfy ===
/**
  Build artifacts and the builders that produce them (furfa.py). Python's
  structural `Artifact`, `Builder` and `File` protocols become two closed
  datatypes; the per-instance timestamp cache of a file becomes a field, and
  every operation that would mutate it returns the updated artifact.
 */
module Artifacts {
  import opened Wrappers
  import opened Filesystem

  /** What a build step can raise. */
  datatype Error =
    | FileNotFound(path: Path)    // `stat` of a path that is not a file
    | CompilerNotFound            // `shutil.which("gcc")` found nothing
    | MissingPathMethod           // the compiler input has no `path()` (an `OutputFile`)
    | CompileFailed(status: int)  // the compiler exited with a non-zero status

  datatype Artifact =
    /** A file that is always rebuilt by touching it (`ToTouchFile`). */
    | ToTouchFile(path: Path)
    /** An existing file and the modification time seen at its last check (`RegularFile`). */
    | RegularFile(path: Path, mtime: int)
    /** A file produced by `recipe`; `snapshot` is the time seen at its last
        check, absent until the file has been seen (`OutputFile`). */
    | OutputFile(path: Path, snapshot: Option<int>, recipe: Builder)

  datatype Builder =
    /** Creates or touches `target` (`TouchFile`). */
    | TouchFile(target: Path)
    /** Compiles `input` into `output` with gcc (`GCC`). */
    | Gcc(input: Artifact, output: Path)

  /** The environment of a compiler run, which the model does not execute:
      whether gcc is on the search path, and the exit status gcc returns when
      compiling a given input path into a given output path. */
  datatype Toolchain = Toolchain(gccOnPath: bool, exitStatus: (Path, Path) -> int)

  /** The outcome of a freshness check: the answer and the artifact with its
      refreshed cache. */
  datatype Check = Check(upToDate: bool, art: Artifact)

  /** The outcome of a successful builder run: the artifacts it returns and
      the file system after it. */
  datatype Ran = Ran(results: seq<Artifact>, world: World)

  /** Number of artifact and builder nodes; the dispatcher recurses on it. */
  function Size(a: Artifact): nat
  {
    match a
    case OutputFile(_, _, b) => 1 + RecipeSize(b)
    case _ => 1
  }

  function RecipeSize(b: Builder): nat
  {
    match b
    case TouchFile(_) => 1
    case Gcc(i, _) => 1 + Size(i)
  }

  function SizeAll(ps: seq<Artifact>): nat
  {
    if ps == [] then 0 else 1 + Size(ps[0]) + SizeAll(ps[1..])
  }

  /** The artifact with every cached time forgotten: what a freshness check
      or a dispatch must leave alone. */
  function Erase(a: Artifact): Artifact
  {
    match a
    case ToTouchFile(p) => a
    case RegularFile(p, _) => RegularFile(p, 0)
    case OutputFile(p, _, b) => OutputFile(p, None, EraseRecipe(b))
  }

  function EraseRecipe(b: Builder): Builder
  {
    match b
    case TouchFile(_) => b
    case Gcc(i, o) => Gcc(Erase(i), o)
  }

  /** Python's truth test on the cached `Optional[int]`: `None` and `0` are both false. */
  predicate Truthy(snapshot: Option<int>)
  {
    snapshot.Some? && snapshot.value != 0
  }

  /** The cache of `a` agrees with the file system: a tracked file remembers
      its current time, and an output file that exists remembers its own. */
  ghost predicate Synced(a: Artifact, w: World)
  {
    match a
    case ToTouchFile(_) => true
    case RegularFile(p, m) => p in w.files && m == w.files[p]
    case OutputFile(p, s, _) => p in w.files ==> s == Some(w.files[p])
  }

  /** `File.path()`: only `ToTouchFile` and `RegularFile` define it. */
  function FilePath(a: Artifact): (r: Option<Path>)
    ensures r.Some? <==> !a.OutputFile?
    ensures r.Some? ==> r.value == a.path
  {
    match a
    case OutputFile(_, _, _) => None
    case _ => Some(a.path)
  }

  /** `up_to_date()`: answers and refreshes the cache; nothing else about
      the artifact changes. The answer is described by `CheckOutcomes`. */
  function UpToDate(a: Artifact, w: World): (r: Result<Check, Error>)
    ensures r.Success? ==> Erase(r.value.art) == Erase(a)
    ensures r.Success? ==> BuilderOf(r.value.art) == BuilderOf(a)
  {
    match a
    case ToTouchFile(_) => Success(Check(false, a))
    case RegularFile(p, cached) =>
      if p !in w.files then Failure(FileNotFound(p))
      else Success(Check(w.files[p] > cached, a.(mtime := w.files[p])))
    case OutputFile(p, snapshot, _) =>
      if p !in w.files then Success(Check(false, a))
      else if !Truthy(snapshot) then Success(Check(true, a.(snapshot := Some(w.files[p]))))
      else Success(Check(w.files[p] > snapshot.value, a.(snapshot := Some(w.files[p]))))
  }

  /** What `up_to_date()` answers. Note the sense of the answer: a tracked
      file, and an output file already seen, is reported up to date when it
      CHANGED since the previous check, and stale when it did not. */
  lemma CheckOutcomes(a: Artifact, w: World)
    ensures var r := UpToDate(a, w);
            && (r.Failure? <==> a.RegularFile? && a.path !in w.files)
            && (r.Failure? ==> r.error == FileNotFound(a.path))
            && (r.Success? ==> Synced(r.value.art, w))
            && (r.Success? && r.value.upToDate ==> !a.ToTouchFile? && a.path in w.files)
            && (a.ToTouchFile? ==> r == Success(Check(false, a)))
            && (a.RegularFile? && r.Success? ==> (r.value.upToDate <==> w.files[a.path] > a.mtime))
            && (a.OutputFile? && a.path !in w.files ==> r == Success(Check(false, a)))
            && (a.OutputFile? && a.path in w.files && !Truthy(a.snapshot) ==> r.value.upToDate)
            && (a.OutputFile? && a.path in w.files && Truthy(a.snapshot) ==>
                  (r.value.upToDate <==> w.files[a.path] > a.snapshot.value))
  {
  }

  /** `builder()`: the recipe of an artifact, if it has one; the
      prerequisites of that recipe are strictly smaller than the artifact. */
  function BuilderOf(a: Artifact): (r: Option<Builder>)
    ensures r.None? <==> a.RegularFile?
    ensures a.ToTouchFile? ==> r == Some(TouchFile(a.path))
    ensures a.OutputFile? ==> r == Some(a.recipe)
    ensures r.Some? ==> SizeAll(Prerequisites(r.value)) < Size(a)
  {
    match a
    case ToTouchFile(p) => Some(TouchFile(p))
    case RegularFile(_, _) => None
    case OutputFile(_, _, b) => Some(b)
  }

  /** `prerequisite()`, as a sequence: a set of at most one element needs no order. */
  function Prerequisites(b: Builder): (r: seq<Artifact>)
    ensures |r| <= 1
    ensures b.TouchFile? ==> r == []
    ensures b.Gcc? ==> r == [b.input]
    ensures SizeAll(r) <= RecipeSize(b)
  {
    match b
    case TouchFile(_) => []
    case Gcc(i, _) => [i]
  }

  /** The path a builder writes. */
  function Target(b: Builder): Path
  {
    match b
    case TouchFile(p) => p
    case Gcc(_, o) => o
  }

  /** The builder holding the updated prerequisite objects `ps`: in Python
      the builder keeps the very instances whose caches the dispatcher refreshed. */
  function WithPrerequisites(b: Builder, ps: seq<Artifact>): (r: Builder)
    requires |ps| == |Prerequisites(b)|
    ensures Prerequisites(r) == ps
    ensures Target(r) == Target(b) && r.TouchFile? == b.TouchFile?
  {
    match b
    case TouchFile(_) => b
    case Gcc(_, o) => Gcc(ps[0], o)
  }

  /** `RegularFile(path)`: snapshots the current time; `stat` raises when
      the path is not a file. */
  function NewRegular(p: Path, w: World): (r: Result<Artifact, Error>)
    ensures r.Success? <==> p in w.files
    ensures r.Failure? ==> r.error == FileNotFound(p)
    ensures r.Success? ==> r.value.RegularFile? && r.value.path == p && Synced(r.value, w)
  {
    if p in w.files then Success(RegularFile(p, w.files[p])) else Failure(FileNotFound(p))
  }

  /** `OutputFile(path, factory)`: the recipe is the factory applied to the
      path, and the time is snapshotted only when the file exists. */
  function NewOutput(p: Path, factory: Path -> Builder, w: World): (r: Artifact)
    ensures r.OutputFile? && r.path == p && r.recipe == factory(p)
    ensures Synced(r, w)
    ensures p !in w.files ==> r.snapshot.None?
  {
    OutputFile(p, if p in w.files then Some(w.files[p]) else None, factory(p))
  }

  /** `gcc(input)`: the factory of compiler builders reading `input`. */
  function GccFactory(input: Artifact): (f: Path -> Builder)
    ensures forall o :: Prerequisites(f(o)) == [input] && Target(f(o)) == o
  {
    o => Gcc(input, o)
  }

  /** `run()`. Touching always succeeds. The compiler fails when gcc is not
      on the search path, when its input has no `path()`, or when it exits
      non-zero, and then changes nothing. A successful run writes the target
      and returns one tracked file over it, snapshotted after the write. */
  function Run(b: Builder, w: World, tc: Toolchain): (r: Result<Ran, Error>)
    ensures b.TouchFile? ==> r.Success?
    ensures b.Gcc? ==> (r.Success? <==>
              tc.gccOnPath && !b.input.OutputFile? && tc.exitStatus(b.input.path, b.output) == 0)
    ensures b.Gcc? && !tc.gccOnPath ==> r == Failure(CompilerNotFound)
    ensures b.Gcc? && tc.gccOnPath && b.input.OutputFile? ==> r == Failure(MissingPathMethod)
    ensures b.Gcc? && tc.gccOnPath && !b.input.OutputFile? && tc.exitStatus(b.input.path, b.output) != 0 ==>
              r == Failure(CompileFailed(tc.exitStatus(b.input.path, b.output)))
    ensures r.Success? ==> r.value.world == Write(w, Target(b))
    ensures r.Success? ==> |r.value.results| == 1 && NewRegular(Target(b), r.value.world) == Success(r.value.results[0])
  {
    match b
    case TouchFile(p) =>
      var w' := Write(w, p);
      Success(Ran([RegularFile(p, w'.files[p])], w'))
    case Gcc(input, output) =>
      if !tc.gccOnPath then Failure(CompilerNotFound)
      else match FilePath(input)
        case None => Failure(MissingPathMethod)
        case Some(source) =>
          var status := tc.exitStatus(source, output);
          if status != 0 then Failure(CompileFailed(status))
          else
            var w' := Write(w, output);
            Success(Ran([RegularFile(output, w'.files[output])], w'))
  }
}

=== FILE: dispatch.dfy ===
/**
  The recursive dispatcher `builder` of furfa.py: skip an artifact that is
  up to date, accept one without a recipe, otherwise bring every
  prerequisite current and then run the recipe once. An exception raised
  anywhere aborts the whole dispatch; what was already written or cached
  stays as it is.
 */
module Dispatch {
  import opened Wrappers
  import opened Filesystem
  import opened Artifacts

  /** The outcome of dispatching on one artifact: the error that aborted it,
      if any; the artifact with its refreshed caches; the file system after
      it; and the targets of the builders that ran, in order. */
  datatype Outcome = Outcome(error: Option<Error>, art: Artifact, world: World, runs: seq<Path>)

  /** The outcome of dispatching on prerequisites one after the other. */
  datatype Batch = Batch(error: Option<Error>, arts: seq<Artifact>, world: World, runs: seq<Path>)

  /** The check of `a` succeeds and the dispatcher stops there: `a` is up to
      date, or it is stale without a recipe. */
  predicate Skipped(a: Artifact, w: World)
  {
    UpToDate(a, w).Success? && (UpToDate(a, w).value.upToDate || BuilderOf(a).None?)
  }

  /** The check of `a` succeeds, reports it stale, and `a` has a recipe. */
  predicate NeedsRun(a: Artifact, w: World)
  {
    UpToDate(a, w).Success? && !UpToDate(a, w).value.upToDate && BuilderOf(a).Some?
  }

  /** The artifact holding its recipe with the refreshed prerequisite
      objects. A file to touch makes a new, stateless builder at every
      call, so it holds nothing. */
  function Reattach(a: Artifact, b: Builder): Artifact
  {
    if a.OutputFile? then a.(recipe := b) else a
  }

  /** `builder(a)`. */
  function Build(a: Artifact, w: World, tc: Toolchain): (d: Outcome)
    ensures Erase(d.art) == Erase(a)
    ensures d.world == WriteAll(w, d.runs)
    decreases Size(a)
  {
    match UpToDate(a, w)
    case Failure(e) => Outcome(Some(e), a, w, [])
    case Success(c) =>
      if c.upToDate then Outcome(None, c.art, w, [])
      else match BuilderOf(c.art)
        case None => Outcome(None, c.art, w, [])
        case Some(b) =>
          var pre := BuildAll(Prerequisites(b), w, tc);
          var d := Conclude(c.art, b, pre, tc);
          WriteAllAppend(w, pre.runs, d.runs[|pre.runs|..]);
          assert pre.runs + d.runs[|pre.runs|..] == d.runs;
          d
  }

  /** The end of `builder(a)` once the prerequisites of its recipe `b` were
      dispatched with outcome `pre`: the error of a prerequisite propagates
      and the recipe does not run; otherwise the recipe, holding the
      refreshed prerequisites, runs once, and if it raises nothing is written. */
  function Conclude(a: Artifact, b: Builder, pre: Batch, tc: Toolchain): (d: Outcome)
    requires BuilderOf(a) == Some(b) && SameShapes(pre.arts, Prerequisites(b))
    ensures pre.error.Some? ==> d.error == pre.error && d.runs == pre.runs && d.world == pre.world
    ensures pre.error.None? && Run(WithPrerequisites(b, pre.arts), pre.world, tc).Failure? ==>
              && d.error == Some(Run(WithPrerequisites(b, pre.arts), pre.world, tc).error)
              && d.runs == pre.runs && d.world == pre.world
    ensures d.error.None? ==>
              pre.error.None? && d.runs == pre.runs + [Target(b)] && d.world == Write(pre.world, Target(b))
    ensures Erase(d.art) == Erase(a)
  {
    var b' := WithPrerequisites(b, pre.arts);
    var a' := Reattach(a, b');
    if pre.error.Some? then Outcome(pre.error, a', pre.world, pre.runs)
    else match Run(b', pre.world, tc)
      case Failure(e) => Outcome(Some(e), a', pre.world, pre.runs)
      case Success(ran) => Outcome(None, a', ran.world, pre.runs + [Target(b')])
  }

  /** With no error among the prerequisites and a recipe that succeeds, the
      dispatch succeeds: the recipe, holding the refreshed prerequisites, is
      the last thing to run, and the file system is the one it leaves. */
  lemma ConcludeRuns(a: Artifact, b: Builder, pre: Batch, tc: Toolchain)
    requires BuilderOf(a) == Some(b) && SameShapes(pre.arts, Prerequisites(b))
    requires pre.error.None? && Run(WithPrerequisites(b, pre.arts), pre.world, tc).Success?
    ensures var b' := WithPrerequisites(b, pre.arts);
            Conclude(a, b, pre, tc)
              == Outcome(None, Reattach(a, b'), Run(b', pre.world, tc).value.world, pre.runs + [Target(b)])
  {
  }

  /** The loop `for p in bb.prerequisite(): builder(p)`, which stops at the
      first prerequisite whose dispatch raises. */
  function BuildAll(ps: seq<Artifact>, w: World, tc: Toolchain): (bt: Batch)
    ensures SameShapes(bt.arts, ps)
    ensures bt.world == WriteAll(w, bt.runs)
    decreases SizeAll(ps)
  {
    if ps == [] then Batch(None, [], w, [])
    else
      var d := Build(ps[0], w, tc);
      if d.error.Some? then
        SameShapesCons(d.art, ps[0], ps[1..], ps[1..]);
        Batch(d.error, [d.art] + ps[1..], d.world, d.runs)
      else
        var rest := BuildAll(ps[1..], d.world, tc);
        SameShapesCons(d.art, ps[0], rest.arts, ps[1..]);
        WriteAllAppend(w, d.runs, rest.runs);
        Batch(rest.error, [d.art] + rest.arts, rest.world, d.runs + rest.runs)
  }

  /** Two lists of artifacts that differ at most in their cached times. */
  ghost predicate SameShapes(xs: seq<Artifact>, ys: seq<Artifact>)
  {
    |xs| == |ys| && forall i :: 0 <= i < |xs| ==> Erase(xs[i]) == Erase(ys[i])
  }

  lemma SameShapesCons(x: Artifact, y: Artifact, xs: seq<Artifact>, ys: seq<Artifact>)
    requires Erase(x) == Erase(y) && (xs == ys || SameShapes(xs, ys))
    ensures SameShapes([x] + xs, [y] + ys)
  {
    assert forall i :: 1 <= i < |xs| + 1 ==> ([x] + xs)[i] == xs[i - 1] && ([y] + ys)[i] == ys[i - 1];
  }

  /** A single prerequisite is dispatched on its own. */
  lemma BuildAllSingle(x: Artifact, w: World, tc: Toolchain)
    ensures var d := Build(x, w, tc);
            BuildAll([x], w, tc) == Batch(d.error, [d.art], d.world, d.runs)
  {
    var d := Build(x, w, tc);
    BuildAllStep([x], w, tc);
    assert [x][0] == x && [x][1..] == [];
    if d.error.None? {
      assert BuildAll([], d.world, tc) == Batch(None, [], d.world, []);
      assert [d.art] + [] == [d.art] && d.runs + [] == d.runs;
    }
  }

  /** When the check raises, the dispatch raises the same error and changes
      nothing; an up-to-date artifact, or a stale one without a recipe, is
      accepted without running or writing anything. */
  lemma SkipsWithoutWriting(a: Artifact, w: World, tc: Toolchain)
    ensures UpToDate(a, w).Failure? ==> Build(a, w, tc) == Outcome(Some(UpToDate(a, w).error), a, w, [])
    ensures Skipped(a, w) ==> Build(a, w, tc) == Outcome(None, UpToDate(a, w).value.art, w, [])
  {
  }

  /** A file to touch is stale at every visit: dispatching on it always
      touches it, never raises, and leaves the artifact as it was. */
  lemma TouchAlwaysRuns(p: Path, w: World, tc: Toolchain)
    ensures Build(ToTouchFile(p), w, tc) == Outcome(None, ToTouchFile(p), Write(w, p), [p])
  {
    var a := ToTouchFile(p);
    assert UpToDate(a, w) == Success(Check(false, a));
    assert BuildAll([], w, tc) == Batch(None, [], w, []);
    assert BuilderOf(a) == Some(TouchFile(p));
    assert Prerequisites(TouchFile(p)) == [];
    assert WithPrerequisites(TouchFile(p), []) == TouchFile(p);
    assert Reattach(a, TouchFile(p)) == a;
    assert Run(TouchFile(p), w, tc) == Success(Ran([RegularFile(p, w.now)], Write(w, p)));
    assert [] + [p] == [p];
  }

  /** A dispatch writes exactly the targets of the builders it ran: each of
      them exists afterwards, no other file changes, and time moves forward. */
  lemma DispatchEffects(a: Artifact, w: World, tc: Toolchain)
    ensures var d := Build(a, w, tc);
            && FramedBy(w, d.world, d.runs)
            && (forall p :: p in d.runs ==> p in d.world.files)
            && (Valid(w) ==> Valid(d.world) && Grows(w, d.world))
  {
    WriteAllEffects(w, Build(a, w, tc).runs);
  }

  /** After a successful dispatch that had to run the recipe, its target is
      the most recently modified file. */
  lemma RebuiltTargetIsNewest(a: Artifact, w: World, tc: Toolchain)
    requires Valid(w) && NeedsRun(a, w) && Build(a, w, tc).error.None?
    ensures var d := Build(a, w, tc);
            var t := Target(BuilderOf(a).value);
            && t in d.world.files
            && forall q :: q in d.world.files ==> d.world.files[q] <= d.world.files[t]
  {
    var d := Build(a, w, tc);
    WriteAllEffects(w, d.runs);
  }

  /** A stale artifact with a recipe: its prerequisites are dispatched
      first; if one of them raises, the recipe never runs; otherwise the
      recipe runs once after them, and if it raises nothing more is written. */
  lemma PrerequisitesFirst(a: Artifact, w: World, tc: Toolchain)
    requires NeedsRun(a, w)
    ensures var b := BuilderOf(a).value;
            var pre := BuildAll(Prerequisites(b), w, tc);
            var d := Build(a, w, tc);
            && (pre.error.Some? ==> d.error == pre.error && d.runs == pre.runs && d.world == pre.world)
            && (pre.error.None? && d.error.None? ==> d.runs == pre.runs + [Target(b)])
            && (pre.error.None? && d.error.Some? ==> d.runs == pre.runs && d.world == pre.world)
  {
    DispatchConcludes(a, w, tc);
  }

  /** Unfolds `builder(a)` for a stale artifact with a recipe. */
  lemma DispatchConcludes(a: Artifact, w: World, tc: Toolchain)
    requires NeedsRun(a, w)
    ensures var c := UpToDate(a, w).value;
            var b := BuilderOf(a).value;
            Build(a, w, tc) == Conclude(c.art, b, BuildAll(Prerequisites(b), w, tc), tc)
  {
    var c := UpToDate(a, w).value;
    assert BuilderOf(c.art) == BuilderOf(a);
  }

  /** A compiler that exits non-zero aborts the dispatch with that status,
      and its output is not written. */
  lemma CompileFailureAborts(p: Path, snapshot: Option<int>, input: Artifact, out: Path, w: World, tc: Toolchain)
    requires var a := OutputFile(p, snapshot, Gcc(input, out));
             NeedsRun(a, w) && BuildAll([input], w, tc).error.None?
    requires tc.gccOnPath && !input.OutputFile? && tc.exitStatus(input.path, out) != 0
    ensures var d := Build(OutputFile(p, snapshot, Gcc(input, out)), w, tc);
            var pre := BuildAll([input], w, tc);
            && d.error == Some(CompileFailed(tc.exitStatus(input.path, out)))
            && d.world == pre.world && d.runs == pre.runs
  {
    var a := OutputFile(p, snapshot, Gcc(input, out));
    DispatchConcludes(a, w, tc);
    var pre := BuildAll([input], w, tc);
    assert Erase(pre.arts[0]) == Erase(input);
    assert Run(Gcc(pre.arts[0], out), pre.world, tc) == Failure(CompileFailed(tc.exitStatus(input.path, out)));
  }

  /** The prerequisite at position `k` is the one whose dispatch raised
      the batch's error: the ones before it were dispatched without error,
      and the ones after it come back as they were given. */
  ghost predicate FailsAt(ps: seq<Artifact>, w: World, tc: Toolchain, k: int)
  {
    && 0 <= k < |ps|
    && var before := BuildAll(ps[..k], w, tc);
       && before.error.None?
       && Build(ps[k], before.world, tc).error == BuildAll(ps, w, tc).error
       && |BuildAll(ps, w, tc).arts| == |ps|
       && BuildAll(ps, w, tc).arts[k + 1..] == ps[k + 1..]
  }

  /** When the loop raises, it raised at one prerequisite, and those after
      it were never visited. */
  lemma {:induction false} BatchStopsAtFirstError(ps: seq<Artifact>, w: World, tc: Toolchain)
    requires BuildAll(ps, w, tc).error.Some?
    ensures exists k :: FailsAt(ps, w, tc, k)
    decreases |ps|
  {
    var d := Build(ps[0], w, tc);
    if d.error.Some? {
      FailsAtHead(ps, w, tc);
    } else {
      assert BuildAll(ps[1..], d.world, tc).error.Some? by {
        BuildAllStep(ps, w, tc);
      }
      BatchStopsAtFirstError(ps[1..], d.world, tc);
      var k :| FailsAt(ps[1..], d.world, tc, k);
      FailsAtNext(ps, w, tc, k);
    }
  }

  /** A first prerequisite that raises is the one the loop stops at. */
  lemma FailsAtHead(ps: seq<Artifact>, w: World, tc: Toolchain)
    requires ps != [] && Build(ps[0], w, tc).error.Some?
    ensures FailsAt(ps, w, tc, 0)
  {
    var d := Build(ps[0], w, tc);
    BuildAllStep(ps, w, tc);
    assert ps[..0] == [];
    assert BuildAll([], w, tc) == Batch(None, [], w, []);
    UnvisitedFromHead(d.art, ps);
  }

  /** After a first prerequisite that succeeds, the position the rest of
      the loop stops at moves up by one. */
  lemma FailsAtNext(ps: seq<Artifact>, w: World, tc: Toolchain, k: int)
    requires ps != [] && Build(ps[0], w, tc).error.None?
    requires FailsAt(ps[1..], Build(ps[0], w, tc).world, tc, k)
    ensures FailsAt(ps, w, tc, k + 1)
  {
    var d := Build(ps[0], w, tc);
    var rest := BuildAll(ps[1..], d.world, tc);
    assert BuildAll(ps, w, tc) == Batch(rest.error, [d.art] + rest.arts, rest.world, d.runs + rest.runs) by {
      BuildAllStep(ps, w, tc);
    }
    assert BuildAll(ps[..k + 1], w, tc).error.None? && BuildAll(ps[..k + 1], w, tc).world == BuildAll(ps[1..][..k], d.world, tc).world by {
      PrefixBatch(ps, w, tc, k);
    }
    assert ([d.art] + rest.arts)[k + 2..] == ([ps[0]] + ps[1..])[k + 2..] by {
      UnvisitedCons(d.art, ps[0], rest.arts, ps[1..], k);
    }
    HeadTail(ps);
    assert ps[1..][k] == ps[k + 1];
  }

  /** Dispatching a prefix one longer than `k` is dispatching the head,
      then the prefix of length `k` of the tail. */
  lemma PrefixBatch(ps: seq<Artifact>, w: World, tc: Toolchain, k: int)
    requires 0 <= k < |ps| - 1 && Build(ps[0], w, tc).error.None?
    requires BuildAll(ps[1..][..k], Build(ps[0], w, tc).world, tc).error.None?
    ensures var before := BuildAll(ps[..k + 1], w, tc);
            && before.error.None?
            && before.world == BuildAll(ps[1..][..k], Build(ps[0], w, tc).world, tc).world
  {
    PrefixFacts(ps, k);
    BuildAllStep(ps[..k + 1], w, tc);
  }

  /** A prefix one longer than `k` starts with the head, and its tail is the
      prefix of length `k` of the tail. */
  lemma PrefixFacts<T>(s: seq<T>, k: nat)
    requires k < |s|
    ensures s[..k + 1] != [] && s[..k + 1][0] == s[0] && s[..k + 1][1..] == s[1..][..k]
  {
  }

  lemma HeadTail<T>(s: seq<T>)
    requires s != []
    ensures [s[0]] + s[1..] == s
  {
  }

  lemma UnvisitedFromHead(x: Artifact, ps: seq<Artifact>)
    requires ps != []
    ensures ([x] + ps[1..])[1..] == ps[1..]
  {
  }

  lemma UnvisitedCons(x: Artifact, y: Artifact, arts: seq<Artifact>, ps: seq<Artifact>, k: int)
    requires 0 <= k < |ps| == |arts| && arts[k + 1..] == ps[k + 1..]
    ensures ([x] + arts)[k + 2..] == ([y] + ps)[k + 2..]
  {
    assert ([x] + arts)[k + 2..] == arts[k + 1..];
    assert ([y] + ps)[k + 2..] == ps[k + 1..];
  }

  /** Unfolds the prerequisite loop by one step. */
  lemma BuildAllStep(ps: seq<Artifact>, w: World, tc: Toolchain)
    requires ps != []
    ensures var d := Build(ps[0], w, tc);
            && (d.error.Some? ==> BuildAll(ps, w, tc) == Batch(d.error, [d.art] + ps[1..], d.world, d.runs))
            && (d.error.None? ==>
                  var rest := BuildAll(ps[1..], d.world, tc);
                  BuildAll(ps, w, tc) == Batch(rest.error, [d.art] + rest.arts, rest.world, d.runs + rest.runs))
  {
  }

  /** The tree can be built from `w`: every tracked file in it exists and,
      as the source's annotations demand, every compiler input is a `File`,
      that is, has `path()`. */
  ghost predicate Buildable(a: Artifact, w: World)
  {
    match a
    case ToTouchFile(_) => true
    case RegularFile(p, _) => p in w.files
    case OutputFile(_, _, b) => RecipeBuildable(b, w)
  }

  ghost predicate RecipeBuildable(b: Builder, w: World)
  {
    match b
    case TouchFile(_) => true
    case Gcc(i, _) => !i.OutputFile? && Buildable(i, w)
  }

  /** gcc is on the search path and every compilation exits with status 0. */
  ghost predicate CompilerWorks(tc: Toolchain)
  {
    tc.gccOnPath && forall i, o :: tc.exitStatus(i, o) == 0
  }

  /** Being buildable depends on the tree's shape, not on its caches, and
      survives writes, since no file disappears. */
  lemma {:induction false} BuildableStable(a: Artifact, a': Artifact, w: World, w': World)
    requires Buildable(a, w) && Erase(a') == Erase(a) && w.files.Keys <= w'.files.Keys
    ensures Buildable(a', w')
    decreases a
  {
    match a
    case ToTouchFile(_) =>
    case RegularFile(p, _) =>
    case OutputFile(_, _, b) =>
      match b
      case TouchFile(_) =>
      case Gcc(i, _) =>
        BuildableStable(i, a'.recipe.input, w, w');
  }

  /** With a working compiler, a buildable tree is always brought current
      without an error. */
  lemma {:induction false} BuildSucceeds(a: Artifact, w: World, tc: Toolchain)
    requires Buildable(a, w) && CompilerWorks(tc)
    ensures Build(a, w, tc).error.None?
    decreases Size(a)
  {
    if NeedsRun(a, w) {
      var b := BuilderOf(a).value;
      var ps := Prerequisites(b);
      assert forall i :: 0 <= i < |ps| ==> Buildable(ps[i], w);
      BuildAllSucceeds(ps, w, tc);
      var pre := BuildAll(ps, w, tc);
      assert Run(WithPrerequisites(b, pre.arts), pre.world, tc).Success? by {
        if b.Gcc? {
          assert Erase(pre.arts[0]) == Erase(ps[0]);
        }
      }
      DispatchConcludes(a, w, tc);
    } else {
      SkipsWithoutWriting(a, w, tc);
    }
  }

  lemma {:induction false} BuildAllSucceeds(ps: seq<Artifact>, w: World, tc: Toolchain)
    requires forall i :: 0 <= i < |ps| ==> Buildable(ps[i], w)
    requires CompilerWorks(tc)
    ensures BuildAll(ps, w, tc).error.None?
    decreases SizeAll(ps)
  {
    if ps != [] {
      BuildSucceeds(ps[0], w, tc);
      var d := Build(ps[0], w, tc);
      WriteAllEffects(w, d.runs);
      forall i | 0 <= i < |ps[1..]|
        ensures Buildable(ps[1..][i], d.world)
      {
        BuildableStable(ps[1..][i], ps[1..][i], w, d.world);
      }
      BuildAllSucceeds(ps[1..], d.world, tc);
    }
  }
}

=== FILE: filesystem.dfy ===
/**
  The part of the file system a build observes: which paths are regular
  files and the modification time (`st_mtime_ns`) of each, together with a
  clock that stamps every write. `Path.stat`, `Path.is_file` and
  `Path.touch` become lookups in and updates of this map.
 */
module Filesystem {

  type Path = string

  /** Modification times in nanoseconds of the regular files, and the clock
      reading the next write will be stamped with. */
  datatype World = World(files: map<Path, int>, now: int)

  /** Every recorded modification lies strictly in the past of the clock. */
  ghost predicate Valid(w: World)
  {
    forall p :: p in w.files ==> w.files[p] < w.now
  }

  /** `p` is a regular file in `w` and in `w'` with the same time, or in neither. */
  ghost predicate SameEntry(w: World, w': World, p: Path)
  {
    (p in w.files <==> p in w'.files) && (p in w.files ==> w.files[p] == w'.files[p])
  }

  /** Only the paths in `touched` may differ between `w` and `w'`. */
  ghost predicate FramedBy(w: World, w': World, touched: seq<Path>)
  {
    forall p {:trigger SameEntry(w, w', p)} :: p !in touched ==> SameEntry(w, w', p)
  }

  /** Time only moves forward: the clock does not go back, no file
      disappears and no modification time decreases. */
  ghost predicate Grows(w: World, w': World)
  {
    && w.now <= w'.now
    && forall p :: p in w.files ==> p in w'.files && w.files[p] <= w'.files[p]
  }

  /** Writing `p` (creating it when missing, as `touch` does, or as a
      compiler writes its output): its modification time becomes the clock
      reading, and the clock advances. Nothing else changes. */
  function Write(w: World, p: Path): (w': World)
    ensures p in w'.files && w'.files[p] == w.now
    ensures w'.now > w.now
  {
    World(w.files[p := w.now], w.now + 1)
  }

  /** A write changes no other file, keeps the world valid, and the written
      file is then newer than every file that existed before. */
  lemma WriteEffects(w: World, p: Path)
    ensures forall q {:trigger SameEntry(w, Write(w, p), q)} :: q != p ==> SameEntry(w, Write(w, p), q)
    ensures Valid(w) ==> Valid(Write(w, p)) && Grows(w, Write(w, p))
    ensures Valid(w) ==> forall q :: q in w.files ==> w.files[q] < Write(w, p).files[p]
  {
  }

  /** The writes of `ps`, in order. */
  function WriteAll(w: World, ps: seq<Path>): (w': World)
    ensures w'.now == w.now + |ps|
    decreases |ps|
  {
    if ps == [] then w else Write(WriteAll(w, ps[..|ps| - 1]), ps[|ps| - 1])
  }

  /** Writing `xs` and then `ys` is writing `xs + ys`. */
  lemma {:induction false} WriteAllAppend(w: World, xs: seq<Path>, ys: seq<Path>)
    ensures WriteAll(w, xs + ys) == WriteAll(WriteAll(w, xs), ys)
    decreases |ys|
  {
    if ys == [] {
      assert xs + ys == xs;
    } else {
      var n := |ys| - 1;
      assert (xs + ys)[..|xs + ys| - 1] == xs + ys[..n];
      assert (xs + ys)[|xs + ys| - 1] == ys[n];
      WriteAllAppend(w, xs, ys[..n]);
    }
  }

  /** A sequence of writes touches exactly the written paths: they all
      exist afterwards, nothing else changes, time moves forward and the
      last path written is the newest file. */
  lemma {:induction false} WriteAllEffects(w: World, ps: seq<Path>)
    ensures FramedBy(w, WriteAll(w, ps), ps)
    ensures forall p :: p in ps ==> p in WriteAll(w, ps).files
    ensures w.files.Keys <= WriteAll(w, ps).files.Keys
    ensures Valid(w) ==> Valid(WriteAll(w, ps)) && Grows(w, WriteAll(w, ps))
    ensures ps != [] ==> WriteAll(w, ps).files[ps[|ps| - 1]] == WriteAll(w, ps).now - 1
    decreases |ps|
  {
    if ps != [] {
      var init := ps[..|ps| - 1];
      var last := ps[|ps| - 1];
      WriteAllEffects(w, init);
      var mid := WriteAll(w, init);
      var w' := Write(mid, last);
      WriteEffects(mid, last);
      assert WriteAll(w, ps) == w';
      forall p | p !in ps
        ensures SameEntry(w, w', p)
      {
        assert p !in init;
        assert SameEntry(w, mid, p);
        assert SameEntry(mid, w', p);
      }
      forall p | p in ps
        ensures p in w'.files
      {
        if p != last {
          assert p in init;
          assert SameEntry(mid, w', p);
        }
      }
    }
  }
}

=== FILE: freshness.dfy ===
/**
  What repeated freshness checks of one artifact instance report: its cache
  is threaded from one check to the next, as the mutable `_mtime` field is
  in furfa.py.
 */
module Freshness {
  import opened Wrappers
  import opened Filesystem
  import opened Artifacts

  /** Checks the same artifact instance at successive moments `ws`, stopping
      at the first check that raises. */
  function Observe(a: Artifact, ws: seq<World>): (r: Result<seq<bool>, Error>)
    ensures r.Success? ==> |r.value| == |ws|
    decreases |ws|
  {
    if ws == [] then Success([])
    else match UpToDate(a, ws[0])
      case Failure(e) => Failure(e)
      case Success(c) =>
        match Observe(c.art, ws[1..])
        case Failure(e) => Failure(e)
        case Success(rest) => Success([c.upToDate] + rest)
  }

  /** A file to touch is stale at every check, whatever happened before. */
  lemma {:induction false} ToTouchAlwaysStale(p: Path, ws: seq<World>)
    ensures Observe(ToTouchFile(p), ws).Success?
    ensures forall i :: 0 <= i < |ws| ==> !Observe(ToTouchFile(p), ws).value[i]
    decreases |ws|
  {
    if ws != [] {
      ToTouchAlwaysStale(p, ws[1..]);
    }
  }

  /** A tracked file can be checked exactly as long as it exists, and each
      check answers whether its time moved past the one seen by the previous
      check (or at construction, `m0`). */
  lemma {:induction false} TrackedReportsChanges(p: Path, m0: int, ws: seq<World>)
    ensures Observe(RegularFile(p, m0), ws).Success? <==> forall i :: 0 <= i < |ws| ==> p in ws[i].files
    ensures (forall i :: 0 <= i < |ws| ==> p in ws[i].files) ==>
              forall i :: 0 <= i < |ws| ==>
                (Observe(RegularFile(p, m0), ws).value[i] <==>
                 ws[i].files[p] > (if i == 0 then m0 else ws[i - 1].files[p]))
    decreases |ws|
  {
    if ws != [] {
      if p in ws[0].files {
        var m1 := ws[0].files[p];
        TrackedReportsChanges(p, m1, ws[1..]);
        assert forall i :: 1 <= i < |ws| ==> ws[1..][i - 1] == ws[i];
      }
    }
  }

  /** Checking twice without any change in between: the second check keeps
      the cache and reports stale, except for an output file whose time is
      0, which Python's falsy test treats as never seen. */
  lemma RecheckIsStale(a: Artifact, w: World)
    requires UpToDate(a, w).Success?
    ensures UpToDate(UpToDate(a, w).value.art, w) ==
              Success(Check(a.OutputFile? && a.path in w.files && w.files[a.path] == 0,
                            UpToDate(a, w).value.art))
  {
  }

  /** A tracked file created at time T0 is stale at its first check, and
      is reported changed by a check after its time moved to T1 > T0. */
  lemma TrackedFileSeesChange(p: Path, w0: World, w1: World)
    requires p in w0.files && p in w1.files && w1.files[p] > w0.files[p]
    ensures NewRegular(p, w0).Success?
    ensures Observe(NewRegular(p, w0).value, [w0, w1]) == Success([false, true])
  {
    var a := NewRegular(p, w0).value;
    assert [w0, w1][1..] == [w1];
    assert [w1][1..] == [];
    assert UpToDate(a, w0) == Success(Check(false, a));
    var a1 := a.(mtime := w1.files[p]);
    assert UpToDate(a, w1) == Success(Check(true, a1));
    assert Observe(a1, []) == Success([]);
    assert [true] + [] == [true];
    assert Observe(a, [w1]) == Success([true]);
    assert [false] + [true] == [false, true];
  }

  /** The first check of a freshly built output file: up to date only when
      it exists with time 0, since a snapshot was taken at construction. A
      missing output is stale. */
  lemma NewOutputFirstCheck(p: Path, factory: Path -> Builder, w: World)
    ensures UpToDate(NewOutput(p, factory, w), w).Success?
    ensures UpToDate(NewOutput(p, factory, w), w).value.upToDate <==> p in w.files && w.files[p] == 0
  {
  }

  /** An output file first seen after construction is trusted: the check
      adopts its time and reports it up to date, without looking at the
      recipe's inputs. */
  lemma OutputTrustsFirstSighting(p: Path, factory: Path -> Builder, w0: World, w1: World)
    requires p !in w0.files && p in w1.files
    ensures UpToDate(NewOutput(p, factory, w0), w1) ==
              Success(Check(true, OutputFile(p, Some(w1.files[p]), factory(p))))
  {
  }
}

=== FILE: scenario.dfy ===
/**
  The build furfa.py sets up at module level: the output `foo` compiled by
  gcc from the file to touch `foo.c`, constructed and dispatched on. Here
  the construction is a function of the file system and the dispatches are
  replayed one after the other.
 */
module Scenario {
  import opened Wrappers
  import opened Filesystem
  import opened Artifacts
  import opened Dispatch
  import opened Freshness

  /** `OutputFile(Path("foo"), gcc(ToTouchFile(Path("foo.c"))))`. */
  function Root(w: World): (a: Artifact)
    ensures a.OutputFile? && a.path == "foo" && a.recipe == Gcc(ToTouchFile("foo.c"), "foo")
  {
    NewOutput("foo", GccFactory(ToTouchFile("foo.c")), w)
  }

  /** The prerequisite list of a compiler reading a file to touch: the
      file is touched, and nothing raises. */
  lemma TouchPrerequisite(src: Path, w: World, tc: Toolchain)
    ensures BuildAll([ToTouchFile(src)], w, tc) == Batch(None, [ToTouchFile(src)], Write(w, src), [src])
  {
    TouchAlwaysRuns(src, w, tc);
    BuildAllSingle(ToTouchFile(src), w, tc);
  }

  /** A stale output compiled from a file to touch, with a working
      compiler: the dispatch touches the source, then compiles the output,
      and the artifact keeps the cache its check left. */
  lemma StaleOutputRebuilds(p: Path, src: Path, snapshot: Option<int>, w: World, tc: Toolchain)
    requires CompilerWorks(tc)
    requires var a := OutputFile(p, snapshot, Gcc(ToTouchFile(src), p));
             UpToDate(a, w).Success? && !UpToDate(a, w).value.upToDate
    ensures var a := OutputFile(p, snapshot, Gcc(ToTouchFile(src), p));
            Build(a, w, tc) == Outcome(None, UpToDate(a, w).value.art, Write(Write(w, src), p), [src, p])
  {
    var source := ToTouchFile(src);
    var b := Gcc(source, p);
    var a := OutputFile(p, snapshot, b);
    var c := UpToDate(a, w).value;
    var pre := Batch(None, [source], Write(w, src), [src]);
    assert Build(a, w, tc) == Conclude(c.art, b, BuildAll([source], w, tc), tc) by {
      DispatchConcludes(a, w, tc);
    }
    assert BuildAll([source], w, tc) == pre by {
      TouchPrerequisite(src, w, tc);
    }
    assert Conclude(c.art, b, pre, tc) == Outcome(None, c.art, Write(pre.world, p), [src, p]) by {
      assert Run(b, pre.world, tc) == Success(Ran([RegularFile(p, pre.world.now)], Write(pre.world, p)));
      assert c.art.recipe == b;
      assert WithPrerequisites(b, pre.arts) == b;
      assert Reattach(c.art, b) == c.art;
      assert pre.runs + [Target(b)] == [src, p];
    }
  }

  /** One run of the script: `a` is constructed and dispatched on once.
      Unless `foo` exists with time 0, the constructor snapshots it, the
      first check finds it unchanged or missing, and the run touches `foo.c`
      and compiles `foo`. */
  lemma ScriptAlwaysRebuilds(w: World, tc: Toolchain)
    requires CompilerWorks(tc)
    requires "foo" in w.files ==> w.files["foo"] != 0
    ensures var d := Build(Root(w), w, tc);
            d.error.None? && d.runs == ["foo.c", "foo"] && d.world == Write(Write(w, "foo.c"), "foo")
  {
    var a := Root(w);
    assert !UpToDate(a, w).value.upToDate by {
      NewOutputFirstCheck("foo", GccFactory(ToTouchFile("foo.c")), w);
    }
    StaleOutputRebuilds("foo", "foo.c", a.snapshot, w, tc);
  }

  /** Starting with neither file present, the first dispatch touches
      `foo.c` and compiles `foo`; the second trusts the `foo` it sees for the
      first time and does nothing, not even the touch; the third finds `foo`
      unchanged since the second, so touches and compiles again. */
  lemma RebuildSkipRebuild(tc: Toolchain)
    requires CompilerWorks(tc)
    ensures var w0 := World(map[], 1);
            var d1 := Build(Root(w0), w0, tc);
            var d2 := Build(d1.art, d1.world, tc);
            var d3 := Build(d2.art, d2.world, tc);
            && d1.error.None? && d1.runs == ["foo.c", "foo"]
            && d1.world == World(map["foo.c" := 1, "foo" := 2], 3)
            && d2.error.None? && d2.runs == [] && d2.world == d1.world
            && d3.error.None? && d3.runs == ["foo.c", "foo"]
            && d3.world == World(map["foo.c" := 3, "foo" := 4], 5)
  {
    FirstDispatchBuilds(tc);
    SecondDispatchSkips(tc);
    ThirdDispatchBuilds(tc);
  }

  /** The output `foo` as the second dispatch leaves it. */
  function Seen(): Artifact
  {
    OutputFile("foo", Some(2), Gcc(ToTouchFile("foo.c"), "foo"))
  }

  lemma FirstDispatchBuilds(tc: Toolchain)
    requires CompilerWorks(tc)
    ensures var w0 := World(map[], 1);
            Build(Root(w0), w0, tc) == Outcome(None, Root(w0), World(map["foo.c" := 1, "foo" := 2], 3), ["foo.c", "foo"])
  {
    var w0 := World(map[], 1);
    var a0 := Root(w0);
    assert a0 == OutputFile("foo", None, Gcc(ToTouchFile("foo.c"), "foo"));
    assert UpToDate(a0, w0) == Success(Check(false, a0));
    StaleOutputRebuilds("foo", "foo.c", None, w0, tc);
    assert Write(Write(w0, "foo.c"), "foo") == World(map["foo.c" := 1, "foo" := 2], 3);
  }

  lemma SecondDispatchSkips(tc: Toolchain)
    ensures var w0 := World(map[], 1);
            var w2 := World(map["foo.c" := 1, "foo" := 2], 3);
            Build(Root(w0), w2, tc) == Outcome(None, Seen(), w2, [])
  {
    var w0 := World(map[], 1);
    var w2 := World(map["foo.c" := 1, "foo" := 2], 3);
    var a0 := Root(w0);
    assert a0 == OutputFile("foo", None, Gcc(ToTouchFile("foo.c"), "foo"));
    assert UpToDate(a0, w2) == Success(Check(true, Seen()));
    SkipsWithoutWriting(a0, w2, tc);
  }

  lemma ThirdDispatchBuilds(tc: Toolchain)
    requires CompilerWorks(tc)
    ensures var w2 := World(map["foo.c" := 1, "foo" := 2], 3);
            Build(Seen(), w2, tc) == Outcome(None, Seen(), World(map["foo.c" := 3, "foo" := 4], 5), ["foo.c", "foo"])
  {
    var w2 := World(map["foo.c" := 1, "foo" := 2], 3);
    assert UpToDate(Seen(), w2) == Success(Check(false, Seen()));
    StaleOutputRebuilds("foo", "foo.c", Some(2), w2, tc);
    assert Write(Write(w2, "foo.c"), "foo") == World(map["foo.c" := 3, "foo" := 4], 5);
  }

  /** Once `foo` has been seen with a non-zero time `s`, dispatches
      alternate whatever happens to `foo.c`: the first finds `foo` unchanged
      and rebuilds it, the second finds it changed and skips. When the clock
      is not negative, the new time of `foo` is positive, so the state left
      is of the same form and the alternation goes on. */
  lemma RebuildsEveryOtherTime(s: int, w: World, tc: Toolchain)
    requires Valid(w) && CompilerWorks(tc) && "foo" in w.files && w.files["foo"] == s && s != 0
    ensures var a := OutputFile("foo", Some(s), Gcc(ToTouchFile("foo.c"), "foo"));
            var d1 := Build(a, w, tc);
            var d2 := Build(d1.art, d1.world, tc);
            && d1.error.None? && d1.runs == ["foo.c", "foo"]
            && d2.error.None? && d2.runs == [] && d2.world == d1.world
            && Valid(d2.world) && "foo" in d2.world.files && d2.world.files["foo"] > s
            && (w.now >= 0 ==> d2.world.files["foo"] > 0)
            && d2.art == OutputFile("foo", Some(d2.world.files["foo"]), Gcc(ToTouchFile("foo.c"), "foo"))
  {
    var a := OutputFile("foo", Some(s), Gcc(ToTouchFile("foo.c"), "foo"));
    UnchangedOutputRebuilds(s, w, tc);
    var w2 := Write(Write(w, "foo.c"), "foo");
    assert Valid(w2) && "foo" in w2.files && w2.files["foo"] == w.now + 1 && w.now > s by {
      WriteEffects(w, "foo.c");
      WriteEffects(Write(w, "foo.c"), "foo");
    }
    ChangedOutputSkips(s, w2, tc);
  }

  /** A `foo` whose time is still its snapshot is rebuilt after `foo.c`. */
  lemma UnchangedOutputRebuilds(s: int, w: World, tc: Toolchain)
    requires CompilerWorks(tc) && "foo" in w.files && w.files["foo"] == s && s != 0
    ensures var a := OutputFile("foo", Some(s), Gcc(ToTouchFile("foo.c"), "foo"));
            Build(a, w, tc) == Outcome(None, a, Write(Write(w, "foo.c"), "foo"), ["foo.c", "foo"])
  {
    var a := OutputFile("foo", Some(s), Gcc(ToTouchFile("foo.c"), "foo"));
    assert UpToDate(a, w) == Success(Check(false, a));
    StaleOutputRebuilds("foo", "foo.c", Some(s), w, tc);
  }

  /** A `foo` whose time moved past its snapshot is skipped, and the
      snapshot moves to that time. */
  lemma ChangedOutputSkips(s: int, w: World, tc: Toolchain)
    requires "foo" in w.files && w.files["foo"] > s && s != 0
    ensures var a := OutputFile("foo", Some(s), Gcc(ToTouchFile("foo.c"), "foo"));
            Build(a, w, tc) == Outcome(None, a.(snapshot := Some(w.files["foo"])), w, [])
  {
    var a := OutputFile("foo", Some(s), Gcc(ToTouchFile("foo.c"), "foo"));
    assert UpToDate(a, w) == Success(Check(true, a.(snapshot := Some(w.files["foo"]))));
    SkipsWithoutWriting(a, w, tc);
  }
}

=== FILE: wrappers.dfy ===
/** Optional values and results with an error, as used throughout the model. */
module Wrappers {

  /** A value that may be absent (Python's `Optional`). */
  datatype Option<+T> = None | Some(value: T)

  /** The value of a call that either returns normally or raises `E`. */
  datatype Result<+T, +E> = Success(value: T) | Failure(error: E)
}
